=== FILE: README.md ===
# vuforia-rest-proxy in Dafny

A verified model of the core of `vuforia-rest-proxy`, a serverless function that
signs and forwards requests to Vuforia Web Services (VWS). The model covers the
whole decision logic of `src/index.py`:

- **Signer** (`compute_signature`, `get_authorization_header`): the string to sign
  `METHOD \n md5hex(body) \n Content-Type \n Date \n path` and the header
  `VWS {access key}:{Base64(HMAC-SHA1(secret, string to sign))}`.
- **Dispatch** (`make_vuforia_request`): leading-slash normalisation of the path,
  the signed HTTPS request that is sent, and the mapping of what comes back
  (an exception, unparseable text, a parsed reply) to the result envelope
  `{status, response}`, including the 403 override for `TargetStatusNotSuccess`.
- **Router** (`process_request`): the five prioritised routing rules and the
  pass-through fallback, the clean-up of update bodies (nulls dropped, `width`
  converted with `float()`), target-id extraction with `split('/targets/')[1]`,
  and the recovery boundary that turns every exception into `{500, Fail}`.
- **Handler** (`handler`): reading `http_method` (upper-cased), `path` and
  `request_body` with their defaults, and the response that is always
  `statusCode` 200 with the CORS headers, the real status nested in the body.

Everything is loop-free and written as functions and lemmas. Python exceptions
are `Result.Err(message)` values; the recovery boundaries turn them into
`FailEnvelope(message)`. A Python `dict` from JSON is a sequence of entries in
insertion order (`Json.JObject`), a float is its IEEE-754 binary64 bit pattern.

Files: `wrappers.dfy` (Option, Result), `strings.dfy` (`startswith`, `find`,
`split`, `join`, ASCII `upper`), `encoding.dfy` (UTF-8, hex digest), `json.dfy`
(JSON values, `type().__name__`, truthiness, `dict.get`), `signer.dfy`,
`dispatch.dfy`, `router.dfy`, `handler.dfy`.

Where each function of `src/index.py` lives:

| source function | Dafny definition |
|---|---|
| `compute_signature` | `Signer.ComputeSignature` |
| `get_authorization_header` | `Signer.StringToSign`, `Signer.AuthorizationHeader` |
| `make_vuforia_request` | `Dispatch.NormalisePath`, `Dispatch.BuildRequest`, `Dispatch.MapResponse`, `Dispatch.MakeVuforiaRequest` |
| `process_request` | `Router.NormaliseUpdate`, `Router.UpdateBody`, `Router.FallbackBody`, `Router.TargetId`, `Router.Route`, `Router.ProcessRequest` |
| `handler` | `Handler.ParseEvent`, `Handler.HandleRequest`, `Handler.HandlerResult`, `Handler.EnvelopeJson`, `Handler.Handler` |

Parameters instead of code: the MD5, HMAC-SHA1 and Base64 primitives
(`Signer.Primitives`), `json.dumps`/`json.loads` and the `float()` conversions of
an int and a string (`Json.JsonCodec`), the network round trip
(`Dispatch.Transport`, a function from the request sent to what came back), and
the date header value (a string argument instead of the clock read).

Edge-case behaviour of the code that the model keeps:

- A reply that parses as JSON but is not an object makes `parsed_response.get`
  raise `AttributeError`, so the result is `{500, Fail}`, not the parsed value.
- In the fallback rule a body that is neither a dict nor a string but is truthy
  (a non-empty list, a non-zero number, `true`) reaches `content.encode` and
  raises, giving `{500, Fail}`; only false values become the empty body.
- The target id is `split('/targets/')[1]`: the text after the first
  `/targets/` up to the next one, so `/targets/a/targets/b` is sent to
  `/targets/a`.
- A `path` that is not a string makes `process_request` raise at its first
  `startswith`, giving `{500, Fail}`.

## Model

| member | source | states |
|---|---|---|
| `Strings.Find` | src/index.py:112 | the result is the first index where the pattern occurs, or none when it occurs nowhere |
| `Strings.Split` | src/index.py:112 | `str.split(sep)`: at least one piece, no piece contains the separator, joining the pieces with it gives back the input, and the first cut is at the leftmost occurrence (one piece exactly when there is none) |
| `Strings.SplitJoin` | src/index.py:21-28 | splitting a newline-join on a character that no part contains gives back exactly the parts |
| `Strings.Upper` | src/index.py:142 | ASCII `upper()`: same length, no lower-case letter left, letters shifted to capitals, everything else unchanged |
| `Strings.UpperIdempotent` | src/index.py:142 | upper-casing twice is upper-casing once |
| `Encoding.EncodeChar` | src/index.py:11-12 | one to four bytes per character, one byte exactly for ASCII, continuation bytes in 0x80-0xBF |
| `Encoding.Utf8` | src/index.py:11-12 | `encode('utf-8')`: between one and four bytes per character; empty exactly for the empty string |
| `Encoding.EncodeCharDecodes` | src/index.py:11-12 | the lead byte of a character's encoding announces its length and the bytes carry its code point |
| `Encoding.DecodeUtf8Utf8` | src/index.py:11-12 | decoding the UTF-8 bytes of a text gives the text back |
| `Encoding.Utf8Injective` | src/index.py:11-12 | different texts have different UTF-8 bytes, so the bytes signed and sent determine the text |
| `Encoding.Utf8Ascii` | src/index.py:23 | ASCII text is encoded byte for byte |
| `Encoding.Hex` | src/index.py:23 | `hexdigest()`: two lower-case hex digits per digest byte |
| `Encoding.UnhexHex` | src/index.py:23 | the hex digest reads back to the digest bytes, so it determines them |
| `Signer.ContentMd5` | src/index.py:23 | the content digest is lower-case hex, has no newline, is 32 characters for a 16-byte MD5, and encodes the MD5 of the UTF-8 body |
| `Signer.StringToSignSplits` | src/index.py:21-28 | the string to sign holds method, content MD5, content type, date and path in that order, joined by single newlines: splitting on newlines gives them back |
| `Signer.StringToSignInjective` | src/index.py:21-28 | two equal strings to sign have equal method, content type, date, path and body digest |
| `Signer.AuthorizationRoundTrip` | src/index.py:10-30 | the header is `VWS ` + access key + `:` + Base64 of HMAC-SHA1 keyed by the UTF-8 secret over the UTF-8 string to sign: parsing it back gives exactly the key and that signature |
| `Json.Get` | src/index.py:67 | `dict.get`: none exactly when the key is absent, otherwise a value stored under the key (the only one when keys are distinct) |
| `Json.GetOr` | src/index.py:142-144 | `dict.get(key, default)`: the stored value when the key is present, the default otherwise |
| `Dispatch.NormalisePath` | src/index.py:38-39 | the path sent starts with `/`, is unchanged if it already did, and otherwise is the path with one `/` in front |
| `Dispatch.NormalisePathIdempotent` | src/index.py:38-39 | normalising twice is normalising once |
| `Dispatch.SignedIsSent` | src/index.py:35-59 | the URL is `https://` + host + the normalised path, which starts with `/` and is the path signed; the `Date` header is the date given and `Content-Type` is `application/json`; the header signs the method sent, the `Content-Type` and `Date` headers sent and the MD5 of the bytes sent; an empty body is not sent, a non-empty one is sent as bytes that decode to it |
| `Dispatch.AsciiBodySentAsIs` | src/index.py:54-59 | a non-empty ASCII body is sent as one byte per character, each its code, and the string VWS rebuilds from those bytes is the one signed |
| `Dispatch.MapResponse` | src/index.py:53-83 | a transport exception or a non-object JSON reply gives `{500, Fail}`; unparseable text keeps the transport status with the raw text; an object is passed on parsed, with status 403 when its `result_code` is `TargetStatusNotSuccess` and the transport status otherwise |
| `Dispatch.MapResponseStatus` | src/index.py:64-83 | the status is the transport status, 403 or 500, and it becomes 403 against the transport status only for `TargetStatusNotSuccess` |
| `Dispatch.MakeVuforiaRequest` | src/index.py:32-83 | a network exception gives `{500, Fail}` with its message; an unparseable reply gives its status and raw text; a JSON object is passed on parsed, with status 403 for `TargetStatusNotSuccess` and the reply's status otherwise; other parsed JSON gives `{500, Fail}` with the `'get'` AttributeError; every failure is a 500 |
| `Router.ToFloat` | src/index.py:97 | `float()` keeps a float and rejects null, lists and dicts |
| `Router.DropNulls` | src/index.py:93 | no null value remains, exactly the non-null entries are kept, a key remains iff it had a non-null value, distinct keys stay distinct |
| `Router.DropNullsAppend` | src/index.py:93 | dropping nulls distributes over concatenation, so the kept entries keep their relative order |
| `Router.SetFieldGet` | src/index.py:97 | `d['width'] = v` on a present key: the key maps to `v`, every other key keeps its value, keys stay distinct |
| `Router.NormaliseUpdateFails` | src/index.py:91-101 | normalising an update body fails exactly when a non-null `width` is present and `float()` rejects it, with `float()`'s message |
| `Router.NormaliseUpdateEntries` | src/index.py:91-99 | the cleaned body has the non-null entries' keys in their order, no null value, every value but `width` unchanged, and `width` the float of its value |
| `Router.NormaliseUpdateDistinct` | src/index.py:93-97 | the cleaned body of a dict is a dict: no key twice |
| `Router.UpdateBody` | src/index.py:89-104 | a non-dict update body is sent as the empty string; a dict body fails exactly when its normalisation fails, and with normalisation's (`float()`'s) message |
| `Router.FallbackBody` | src/index.py:117-120 | a dict is serialised, a string sent as it is, a false value sent as empty; any other value raises, with the `'<type>' object has no attribute 'encode'` message of line 23 |
| `Router.SplitPrefixed` | src/index.py:112 | splitting a path that starts with `/targets/` gives an empty first piece, then the pieces of the rest |
| `Router.TargetIdSpec` | src/index.py:111-116 | the target id is the text after the first `/targets/` up to the next one or the end; without a further `/targets/` the rebuilt path is the path itself |
| `Router.Route` | src/index.py:89-120 | the method is never changed; the path changes only for DELETE/GET by id when the id holds another `/targets/`; routing fails only for an update whose `width` is rejected or a pass-through body that is neither dict, string nor false, and then carries that body's error message |
| `Router.RouteUpdate` | src/index.py:89-104 | PUT on `/targets/...` goes out as PUT to the same path with the cleaned body, or with an empty body when the body is not a dict |
| `Router.RouteUpdateDict` | src/index.py:89-104 | an update whose dict normalises to a cleaned dict sends that dict serialised |
| `Router.RouteCreate` | src/index.py:107-108 | POST on exactly `/targets` sends the body serialised as it came |
| `Router.RouteList` | src/index.py:109-110 | GET on exactly `/targets` goes out with an empty body whatever body came |
| `Router.RouteById` | src/index.py:111-116 | DELETE and GET on `/targets/...` go to `/targets/{id}` with an empty body, which is the incoming path when no further `/targets/` follows |
| `Router.RoutePassThrough` | src/index.py:117-120 | any other request keeps its method and path and sends the fallback body |
| `Router.PutWithoutIdPassesThrough` | src/index.py:89-120 | PUT on exactly `/targets` is not an update: a dict body is sent with its nulls |
| `Router.UpdateExample` | src/index.py:89-104 | `{"name": "x", "width": "5", "active_flag": null}` on `/targets/abc` is sent without `active_flag` and with `width` the float 5.0 |
| `Router.ProcessRequest` | src/index.py:85-130 | every failure is a 500 envelope; a failed route gives `{500, Fail}` with the exception's message; a routed call gives the mapped reply to exactly the request built for that call |
| `Router.FailedRouteSendsNothing` | src/index.py:85-130 | a request whose routing raises does not depend on the network: nothing is sent |
| `Router.ProcessRequestStatus` | src/index.py:85-130 | the status is 500, 403, or the status of the reply to the request that was sent |
| `Handler.ParseEvent` | src/index.py:138-144 | the method read from the event holds no lower-case ASCII letter |
| `Handler.ParseEventNoBody` | src/index.py:138-144 | an event without `body` is read directly: its own `http_method` upper-cased, `path` defaulting to `''` and `request_body` to `{}` |
| `Handler.ParseEventBodyNotDict` | src/index.py:138-142 | a `body` that is neither text nor a dict (null, list, number, boolean) cannot be read: the `'get'` AttributeError |
| `Handler.ParseEventText` | src/index.py:138-142 | a text `body` that `json.loads` rejects fails with its error; one that parses to a non-dict fails with the `'get'` AttributeError |
| `Handler.ParseEventMethodNotString` | src/index.py:142 | an `http_method` that is not a string fails with the `'upper'` AttributeError |
| `Handler.ParseEventNoMethod` | src/index.py:142-144 | a `body` dict without `http_method` asks for method `''` with its own `path` and `request_body`, or their defaults |
| `Handler.ParseEventWith` | src/index.py:138-144 | any event whose `body` is a dict with a string `http_method` yields that method upper-cased, `path` defaulting to `''` and `request_body` to `{}`, whatever other keys the event carries |
| `Handler.ParseEventDefaults` | src/index.py:142-144 | any event whose `body` dict lacks the three parameters asks for method `''` on path `''` with body `{}` |
| `Handler.MethodCaseInsensitive` | src/index.py:142 | for any two events, a method sent in any case is read as the same request as the method upper-cased |
| `Handler.BodyTextOrDict` | src/index.py:138-140 | any event whose `body` is JSON text is read, and answered, exactly as any event whose `body` is the parsed dict |
| `Handler.HandleRequest` | src/index.py:143-150 | a string path gives exactly `process_request`'s envelope; a non-string path gives `{500, Fail}` with the `AttributeError` text for `startswith`; every failure is a 500 |
| `Handler.HandlerResult` | src/index.py:136-170 | an event that cannot be read gives `{500, Fail}` with the exception's message; a readable event gives the handled request's envelope; every failure is a 500 |
| `Handler.EnvelopeJson` | src/index.py:152-170 | the serialised result is an object whose `status` is the nested status and whose `response` is the parsed reply, the raw text as a JSON string, or `{"result_code": "Fail", "error": message}` |
| `Handler.Handler` | src/index.py:132-170 | the Lambda response always has `statusCode` 200 and the CORS headers, and its body is `json.dumps` of the result envelope |
| `Handler.TransportFailureIsNested` | src/index.py:136-170 | a network failure still gives `statusCode` 200, and the response body is the serialised `{500, Fail}` envelope carrying the exception's message |

## Left out

- The HTTPS transport (`urllib3.PoolManager`, `http.request`, the UTF-8 decoding of the reply): a `Transport` function parameter; a reply that is not UTF-8 is a `TransportError`.
- The clock read: the `Date` value is a string argument (an IMF-fixdate, section 7.1.1.1 of RFC 7231, in the system).
- The internals of MD5 (RFC 1321), SHA-1 (FIPS 180-4), HMAC (RFC 2104) and Base64 (section 4 of RFC 4648): fields of `Signer.Primitives`. The `hmac.new(key, None, sha1)` then `update(data)` sequence is HMAC of the whole data, so it is one call.
- `json.loads` and `json.dumps`, and the parsing of a string or rounding of an int by `float()`: fields of `Json.JsonCodec`; the JSON grammar is not modelled.
- The text of exceptions raised by libraries (`str(e)` of a transport or decoding error, of `float()`): carried as given by the parameters. `AttributeError` and `float()` `TypeError` texts are spelled out.
- All `print` logging: a side effect only.
- Python's Unicode `upper()`: modelled for ASCII letters only.
- Lone surrogates in Python strings (which make `encode('utf-8')` raise): Dafny characters are Unicode scalar values, so they cannot occur.
- JSON objects with a repeated key: a Python dict keeps the last value, `Json.Get` returns the first; the model assumes keys are distinct where it matters (`Json.DistinctKeys`).
- That changing any input changes the signature: this depends on collision resistance of HMAC-SHA1 and MD5, which are parameters; what is proved is that the string to sign determines its components (`Signer.StringToSignInjective`).
- `src/config.py` constants: the host and keys are the `Dispatch.Credentials` parameter; the CORS header map is `Handler.CORS_HEADERS`.

=== FILE: dispatch.dfy ===
/** `make_vuforia_request`: path normalisation, the signed HTTPS request it
    sends, and the mapping of what comes back to a result envelope. The
    network round trip is a parameter (`Transport`); the date is a parameter
    instead of a clock read. */
module Dispatch {
  import opened Wrappers
  import opened Strings
  import opened Encoding
  import opened Json
  import opened Signer

  /** The configured VWS host and key pair. */
  datatype Credentials = Credentials(host: string, accessKey: string, secretKey: string)

  /** Everything the proxy takes from its surroundings besides a request. */
  datatype Config = Config(creds: Credentials, prims: Primitives, codec: JsonCodec)

  const CONTENT_TYPE: string := "application/json"

  /** The request handed to the HTTP client; a body of `None` means no body. */
  datatype HttpRequest = HttpRequest(
    httpMethod: string, url: string, headers: seq<(string, string)>, body: Option<seq<byte>>)

  /** What the HTTP client produced: an exception (connection, TLS, timeout
      or a response that is not UTF-8), or a status with the decoded text. */
  datatype Outcome = TransportError(message: string) | Reply(status: int, text: string)

  /** The network round trip. */
  type Transport = HttpRequest -> Outcome

  /** The `response` of a result: the parsed JSON reply, the raw reply text,
      or `{"result_code": "Fail", "error": error}`. */
  datatype Response = Parsed(json: Json) | Raw(text: string) | Fail(error: string)

  /** The result envelope `{"status": status, "response": response}`. */
  datatype Envelope = Envelope(status: int, response: Response)

  /** The envelope every caught exception becomes. */
  function FailEnvelope(message: string): Envelope
  {
    Envelope(500, Fail(message))
  }

  const TARGET_STATUS_NOT_SUCCESS: string := "TargetStatusNotSuccess"

  /** The path with a leading `/` added when it has none. */
  function NormalisePath(path: string): (r: string)
    ensures StartsWith(r, "/")
    ensures StartsWith(path, "/") ==> r == path
    ensures !StartsWith(path, "/") ==> r[1..] == path
  {
    if StartsWith(path, "/") then path else "/" + path
  }

  /** Normalising a normalised path changes nothing. */
  lemma NormalisePathIdempotent(path: string)
    ensures NormalisePath(NormalisePath(path)) == NormalisePath(path)
  {
  }

  /** The first value of the header called `name`. */
  function HeaderValue(headers: seq<(string, string)>, name: string): Option<string>
  {
    if headers == [] then None
    else if headers[0].0 == name then Some(headers[0].1)
    else HeaderValue(headers[1..], name)
  }

  /** The request `make_vuforia_request` sends for `httpMethod`, `path`,
      `body` at `date`. */
  function BuildRequest(cfg: Config, httpMethod: string, path: string, body: string, date: string): HttpRequest
  {
    var p := NormalisePath(path);
    var authorization := AuthorizationHeader(cfg.prims, cfg.creds.accessKey, cfg.creds.secretKey,
                                             httpMethod, body, CONTENT_TYPE, date, p);
    HttpRequest(
      httpMethod,
      "https://" + cfg.creds.host + p,
      [("Authorization", authorization), ("Content-Type", CONTENT_TYPE), ("Date", date)],
      if body == "" then None else Some(Utf8(body)))
  }

  /** The string to sign as VWS rebuilds it from a received request: the
      method, the MD5 of the bytes received (none for no body), the
      `Content-Type` and `Date` headers and the path of the URL. */
  function ReceivedStringToSign(prims: Primitives, host: string, req: HttpRequest): Option<string>
  {
    var prefix := "https://" + host;
    match (HeaderValue(req.headers, "Content-Type"), HeaderValue(req.headers, "Date"))
    case (Some(contentType), Some(date)) =>
      if !StartsWith(req.url, prefix) then None
      else
        var received := match req.body case None => [] case Some(bytes) => bytes;
        Some(Join([req.httpMethod, Hex(prims.md5(received)), contentType, date, req.url[|prefix|..]], "\n"))
    case _ => None
  }

  /** What is signed is what is sent: the header carries the signature of
      the string VWS rebuilds from the request, whose path is the one in the
      URL and starts with `/`, and whose digest covers exactly the bytes of
      the body sent, which decode to the body. */
  lemma SignedIsSent(cfg: Config, httpMethod: string, path: string, body: string, date: string)
    ensures var req := BuildRequest(cfg, httpMethod, path, body, date);
      var prefix := "https://" + cfg.creds.host;
      && StartsWith(req.url, prefix)
      && StartsWith(req.url[|prefix|..], "/")
      && req.url == prefix + NormalisePath(path)
      && HeaderValue(req.headers, "Date") == Some(date)
      && HeaderValue(req.headers, "Content-Type") == Some(CONTENT_TYPE)
      && req.httpMethod == httpMethod
      && (req.body.None? <==> body == "")
      && (req.body.Some? ==> DecodeUtf8(req.body.value) == Some(body))
      && ReceivedStringToSign(cfg.prims, cfg.creds.host, req).Some?
      && HeaderValue(req.headers, "Authorization")
         == Some("VWS " + cfg.creds.accessKey + ":"
                 + ComputeSignature(cfg.prims, cfg.creds.secretKey,
                                    ReceivedStringToSign(cfg.prims, cfg.creds.host, req).value))
  {
    var req := BuildRequest(cfg, httpMethod, path, body, date);
    var prefix := "https://" + cfg.creds.host;
    var p := NormalisePath(path);
    DecodeUtf8Utf8(body);
    assert req.url == prefix + p;
    assert req.url[..|prefix|] == prefix;
    assert req.url[|prefix|..] == p;
    assert StartsWith(req.url, prefix);
    assert HeaderValue(req.headers, "Content-Type") == Some(CONTENT_TYPE);
    assert HeaderValue(req.headers[2..], "Date") == Some(date);
    assert HeaderValue(req.headers[1..], "Date") == Some(date) by {
      assert req.headers[1..][1..] == req.headers[2..];
      assert "Content-Type"[0] != "Date"[0];
    }
    assert HeaderValue(req.headers, "Date") == Some(date) by {
      assert "Authorization"[0] != "Date"[0];
    }
    assert Utf8(body) == match req.body case None => [] case Some(bytes) => bytes;
    assert ReceivedStringToSign(cfg.prims, cfg.creds.host, req)
        == Some(StringToSign(cfg.prims, httpMethod, body, CONTENT_TYPE, date, p));
  }

  /** A non-empty ASCII body (what `json.dumps` produces by default) goes out
      as one byte per character, each the character's code, and those are
      the bytes whose MD5 is signed. */
  lemma AsciiBodySentAsIs(cfg: Config, httpMethod: string, path: string, body: string, date: string)
    requires body != ""
    requires forall i :: 0 <= i < |body| ==> body[i] as int < 0x80
    ensures var req := BuildRequest(cfg, httpMethod, path, body, date);
      && req.body.Some?
      && |req.body.value| == |body|
      && (forall i :: 0 <= i < |body| ==> req.body.value[i] as int == body[i] as int)
      && ReceivedStringToSign(cfg.prims, cfg.creds.host, req)
         == Some(StringToSign(cfg.prims, httpMethod, body, CONTENT_TYPE, date, NormalisePath(path)))
  {
    SignedIsSent(cfg, httpMethod, path, body, date);
    Utf8Ascii(body);
    var req := BuildRequest(cfg, httpMethod, path, body, date);
    var prefix := "https://" + cfg.creds.host;
    assert req.url[|prefix|..] == NormalisePath(path);
  }

  /** The JSON reply is a dict whose `result_code` is `TargetStatusNotSuccess`. */
  predicate IsTargetStatusNotSuccess(fields: seq<(string, Json)>)
  {
    Get(fields, "result_code") == Some(JStr(TARGET_STATUS_NOT_SUCCESS))
  }

  /** The envelope for what the HTTP client produced. */
  function MapResponse(codec: JsonCodec, outcome: Outcome): (r: Envelope)
    // failures: the transport raised, or the reply parsed but is not a dict
    ensures r.response.Fail? <==>
      outcome.TransportError? || (codec.loads(outcome.text).Ok? && !codec.loads(outcome.text).value.JObject?)
    ensures r.response.Fail? ==> r.status == 500
    ensures outcome.TransportError? ==> r.response == Fail(outcome.message)
    // unparseable text is passed on raw, with the transport status
    ensures r.response.Raw? <==> outcome.Reply? && codec.loads(outcome.text).Err?
    ensures r.response.Raw? ==> r.status == outcome.status && r.response.text == outcome.text
    // a dict is passed on parsed; only TargetStatusNotSuccess changes the status
    ensures r.response.Parsed? ==>
      && outcome.Reply?
      && codec.loads(outcome.text) == Ok(r.response.json)
      && r.response.json.JObject?
      && r.status == (if IsTargetStatusNotSuccess(r.response.json.fields) then 403 else outcome.status)
  {
    match outcome
    case TransportError(message) => FailEnvelope(message)
    case Reply(status, text) =>
      match codec.loads(text)
      case Err(_) => Envelope(status, Raw(text))
      case Ok(JObject(fields)) =>
        Envelope(if IsTargetStatusNotSuccess(fields) then 403 else status, Parsed(JObject(fields)))
      case Ok(other) => FailEnvelope(NoAttribute(other, "get"))
  }

  /** The status of a result is the transport status, 403 or 500. */
  lemma MapResponseStatus(codec: JsonCodec, outcome: Outcome)
    ensures var r := MapResponse(codec, outcome);
      r.status == 403 || r.status == 500 || (outcome.Reply? && r.status == outcome.status)
    ensures var r := MapResponse(codec, outcome);
      r.status == 403 && outcome.Reply? && outcome.status != 403 ==>
        r.response.Parsed? && IsTargetStatusNotSuccess(r.response.json.fields)
  {
  }

  /** `make_vuforia_request(httpMethod, path, body)`: one request is sent,
      and the result is read from what came back for it. */
  function MakeVuforiaRequest(cfg: Config, httpMethod: string, path: string, body: string,
                              date: string, transport: Transport): (r: Envelope)
    ensures var outcome := transport(BuildRequest(cfg, httpMethod, path, body, date));
      && (outcome.TransportError? ==> r == FailEnvelope(outcome.message))
      && (r.response.Fail? ==> r.status == 500)
      && (r.status == 403 || r.status == 500 || (outcome.Reply? && r.status == outcome.status))
      && (outcome.Reply? && cfg.codec.loads(outcome.text).Err? ==> r == Envelope(outcome.status, Raw(outcome.text)))
    ensures var outcome := transport(BuildRequest(cfg, httpMethod, path, body, date));
      outcome.Reply? && cfg.codec.loads(outcome.text).Ok? && cfg.codec.loads(outcome.text).value.JObject? ==>
        var json := cfg.codec.loads(outcome.text).value;
        r == Envelope(if IsTargetStatusNotSuccess(json.fields) then 403 else outcome.status, Parsed(json))
    ensures var outcome := transport(BuildRequest(cfg, httpMethod, path, body, date));
      outcome.Reply? && cfg.codec.loads(outcome.text).Ok? && !cfg.codec.loads(outcome.text).value.JObject? ==>
        r == FailEnvelope(NoAttribute(cfg.codec.loads(outcome.text).value, "get"))
  {
    MapResponse(cfg.codec, transport(BuildRequest(cfg, httpMethod, path, body, date)))
  }
}

=== FILE: encoding.dfy ===
/** Byte encodings used by the signer: UTF-8 (Python's `str.encode('utf-8')`,
    RFC 3629) and lower-case hexadecimal (Python's `digest.hexdigest()`). */
module Encoding {
  import opened Wrappers

  newtype byte = x: int | 0 <= x < 256

  /** The UTF-8 encoding of one Unicode scalar value (section 3 of RFC 3629). */
  function EncodeChar(c: char): (r: seq<byte>)
    ensures 1 <= |r| <= 4
    ensures (c as int < 0x80) <==> |r| == 1
    ensures c as int < 0x80 ==> r[0] as int == c as int
    ensures |r| > 1 ==> forall k :: 1 <= k < |r| ==> 0x80 <= r[k] < 0xC0
  {
    var n := c as int;
    if n < 0x80 then [n as byte]
    else if n < 0x800 then [(0xC0 + n / 0x40) as byte, (0x80 + n % 0x40) as byte]
    else if n < 0x1_0000 then
      [(0xE0 + n / 0x1000) as byte, (0x80 + n / 0x40 % 0x40) as byte, (0x80 + n % 0x40) as byte]
    else
      [(0xF0 + n / 0x4_0000) as byte, (0x80 + n / 0x1000 % 0x40) as byte,
       (0x80 + n / 0x40 % 0x40) as byte, (0x80 + n % 0x40) as byte]
  }

  /** Python's `s.encode('utf-8')`. */
  function Utf8(s: string): (r: seq<byte>)
    ensures |s| <= |r| <= 4 * |s|
    ensures s == [] <==> r == []
  {
    if s == [] then [] else EncodeChar(s[0]) + Utf8(s[1..])
  }

  /** UTF-8 leaves ASCII text byte for byte. */
  lemma {:induction false} Utf8Ascii(s: string)
    requires forall i :: 0 <= i < |s| ==> s[i] as int < 0x80
    ensures |Utf8(s)| == |s|
    ensures forall i :: 0 <= i < |s| ==> Utf8(s)[i] as int == s[i] as int
  {
    if s != [] {
      Utf8Ascii(s[1..]);
    }
  }

  /** The number of bytes of the UTF-8 sequence a lead byte starts, or 0
      for a byte that cannot start one. */
  function SequenceLength(lead: byte): nat
  {
    if lead < 0x80 then 1
    else if 0xC0 <= lead < 0xE0 then 2
    else if 0xE0 <= lead < 0xF0 then 3
    else if 0xF0 <= lead < 0xF8 then 4
    else 0
  }

  /** The code point carried by one UTF-8 sequence of 1 to 4 bytes. */
  function CodePoint(bs: seq<byte>): int
    requires 1 <= |bs| <= 4
  {
    if |bs| == 1 then bs[0] as int
    else if |bs| == 2 then (bs[0] as int - 0xC0) * 0x40 + (bs[1] as int - 0x80)
    else if |bs| == 3 then
      (bs[0] as int - 0xE0) * 0x1000 + (bs[1] as int - 0x80) * 0x40 + (bs[2] as int - 0x80)
    else
      (bs[0] as int - 0xF0) * 0x4_0000 + (bs[1] as int - 0x80) * 0x1000
        + (bs[2] as int - 0x80) * 0x40 + (bs[3] as int - 0x80)
  }

  /** A Unicode scalar value: a code point that is not a surrogate. */
  predicate IsScalar(n: int)
  {
    0 <= n < 0xD800 || 0xE000 <= n < 0x11_0000
  }

  /** Reads UTF-8 bytes back into text. */
  function DecodeUtf8(bs: seq<byte>): Option<string>
    decreases |bs|
  {
    if bs == [] then Some("")
    else
      var len := SequenceLength(bs[0]);
      if len == 0 || |bs| < len || !IsScalar(CodePoint(bs[..len])) then None
      else
        match DecodeUtf8(bs[len..])
        case None => None
        case Some(rest) => Some([CodePoint(bs[..len]) as char] + rest)
  }

  /** The lead byte of a character's encoding announces its length, and the
      sequence carries the character's code point. */
  lemma EncodeCharDecodes(c: char)
    ensures SequenceLength(EncodeChar(c)[0]) == |EncodeChar(c)|
    ensures CodePoint(EncodeChar(c)) == c as int
  {
    var n := c as int;
    if 0x800 <= n < 0x1_0000 {
      assert n / 0x40 == n / 0x1000 * 0x40 + n / 0x40 % 0x40;
    } else if 0x1_0000 <= n {
      assert n / 0x40 == n / 0x1000 * 0x40 + n / 0x40 % 0x40;
      assert n / 0x1000 == n / 0x4_0000 * 0x40 + n / 0x1000 % 0x40;
    }
  }

  /** Decoding undoes `encode('utf-8')`. */
  lemma {:induction false} DecodeUtf8Utf8(s: string)
    ensures DecodeUtf8(Utf8(s)) == Some(s)
  {
    if s != [] {
      var e := EncodeChar(s[0]);
      var bs := Utf8(s);
      EncodeCharDecodes(s[0]);
      assert bs[0] == e[0];
      assert bs[..|e|] == e;
      assert bs[|e|..] == Utf8(s[1..]);
      DecodeUtf8Utf8(s[1..]);
      assert [CodePoint(e) as char] + s[1..] == s;
    }
  }

  /** Different texts have different UTF-8 encodings. */
  lemma Utf8Injective(s: string, t: string)
    requires Utf8(s) == Utf8(t)
    ensures s == t
  {
    DecodeUtf8Utf8(s);
    DecodeUtf8Utf8(t);
  }

  /** A lower-case hexadecimal digit. */
  predicate IsHexDigit(c: char)
  {
    '0' <= c <= '9' || 'a' <= c <= 'f'
  }

  /** The lower-case hexadecimal digit for a value below 16. */
  function HexDigit(d: nat): (c: char)
    requires d < 16
    ensures IsHexDigit(c)
  {
    if d < 10 then ('0' as int + d) as char else ('a' as int + d - 10) as char
  }

  /** The two lower-case hexadecimal digits of a byte, high nibble first. */
  function HexByte(b: byte): string
  {
    [HexDigit(b as int / 16), HexDigit(b as int % 16)]
  }

  /** Python's `hexdigest()`: two lower-case hex digits per byte. */
  function Hex(bs: seq<byte>): (r: string)
    ensures |r| == 2 * |bs|
    ensures forall i :: 0 <= i < |r| ==> IsHexDigit(r[i])
  {
    if bs == [] then "" else HexByte(bs[0]) + Hex(bs[1..])
  }

  /** The value of a lower-case hex digit. */
  function HexValue(c: char): Option<nat>
  {
    if '0' <= c <= '9' then Some(c as int - '0' as int)
    else if 'a' <= c <= 'f' then Some(c as int - 'a' as int + 10)
    else None
  }

  /** Reads back a string of lower-case hex digit pairs. */
  function Unhex(s: string): Option<seq<byte>>
    decreases |s|
  {
    if s == [] then Some([])
    else if |s| == 1 then None
    else
      match (HexValue(s[0]), HexValue(s[1]), Unhex(s[2..]))
      case (Some(hi), Some(lo), Some(rest)) =>
        if hi < 16 && lo < 16 then Some([(hi * 16 + lo) as byte] + rest) else None
      case _ => None
  }

  /** A hex digest determines the bytes it was made from. */
  lemma {:induction false} UnhexHex(bs: seq<byte>)
    ensures Unhex(Hex(bs)) == Some(bs)
  {
    if bs != [] {
      var b := bs[0] as int;
      assert HexValue(HexDigit(b / 16)) == Some(b / 16);
      assert HexValue(HexDigit(b % 16)) == Some(b % 16);
      var h := Hex(bs);
      assert h[0] == HexDigit(b / 16) && h[1] == HexDigit(b % 16);
      assert h[2..] == Hex(bs[1..]);
      UnhexHex(bs[1..]);
      assert (b / 16 * 16 + b % 16) as byte == bs[0];
      assert [bs[0]] + bs[1..] == bs;
    }
  }
}

=== FILE: handler.dfy ===
/** The Lambda entry point `handler`: reading the event, calling
    `process_request`, and wrapping the result in a response whose own
    status is always 200 (the real status is nested in the body). */
module Handler {
  import opened Wrappers
  import opened Strings
  import opened Json
  import opened Dispatch
  import opened Router

  /** The fixed CORS headers of every response (src/config.py). */
  const CORS_HEADERS: seq<(string, string)> := [
    ("Access-Control-Allow-Origin", "*"),
    ("Access-Control-Allow-Headers", "Content-Type,X-Amz-Date,Authorization,X-Api-Key,X-Amz-Security-Token"),
    ("Access-Control-Allow-Methods", "OPTIONS,POST,GET,DELETE"),
    ("Content-Type", "application/json")
  ]

  /** `{'statusCode': ..., 'headers': ..., 'body': ...}`. */
  datatype LambdaResponse = LambdaResponse(statusCode: int, headers: seq<(string, string)>, body: string)

  /** The three parameters `handler` reads from the event. The path and the
      request body are whatever JSON the caller sent. */
  datatype Request = Request(httpMethod: string, path: Json, requestBody: Json)

  /** src/index.py:138-144: the event's `body` (or the event itself when it has
      none), parsed when it is a string, then `http_method` upper-cased and
      defaulted to `''`, `path` defaulted to `''` and `request_body` to `{}`. */
  function ParseEvent(codec: JsonCodec, event: seq<(string, Json)>): (r: Result<Request>)
    ensures r.Ok? ==> forall i :: 0 <= i < |r.value.httpMethod| ==> !('a' <= r.value.httpMethod[i] <= 'z')
  {
    var body := GetOr(event, "body", JObject(event));
    var parsed := if body.JStr? then codec.loads(body.s) else Ok(body);
    match parsed
    case Err(e) => Err(e)
    case Ok(JObject(fields)) =>
      var m := GetOr(fields, "http_method", JStr(""));
      if !m.JStr? then Err(NoAttribute(m, "upper"))
      else Ok(Request(Upper(m.s), GetOr(fields, "path", JStr("")), GetOr(fields, "request_body", JObject([]))))
    case Ok(other) => Err(NoAttribute(other, "get"))
  }

  /** src/index.py:150: `process_request` on the parsed parameters. A path that is
      not a string makes every branch of `process_request` raise at its first
      `path.startswith` call (src/index.py:89, 111, 114 or 38), before any request
      is sent, so the result is the 500 `Fail` envelope. */
  function HandleRequest(cfg: Config, req: Request, date: string, transport: Transport): (r: Envelope)
    ensures r.response.Fail? ==> r.status == 500
    ensures !req.path.JStr? ==> r == FailEnvelope(NoAttribute(req.path, "startswith"))
    ensures req.path.JStr? ==> r == ProcessRequest(cfg, req.httpMethod, req.path.s, req.requestBody, date, transport)
  {
    match req.path
    case JStr(path) => ProcessRequest(cfg, req.httpMethod, path, req.requestBody, date, transport)
    case _ => FailEnvelope(NoAttribute(req.path, "startswith"))
  }

  /** The result envelope `handler` serialises: the processed request, or the
      500 `Fail` envelope when reading the event raised. */
  function HandlerResult(cfg: Config, event: seq<(string, Json)>, date: string, transport: Transport): (r: Envelope)
    ensures ParseEvent(cfg.codec, event).Err? ==> r == FailEnvelope(ParseEvent(cfg.codec, event).error)
    ensures r.response.Fail? ==> r.status == 500
    ensures ParseEvent(cfg.codec, event).Ok? ==> r == HandleRequest(cfg, ParseEvent(cfg.codec, event).value, date, transport)
  {
    match ParseEvent(cfg.codec, event)
    case Err(e) => FailEnvelope(e)
    case Ok(req) => HandleRequest(cfg, req, date, transport)
  }

  /** The result envelope as the JSON value `json.dumps` is given. */
  function EnvelopeJson(env: Envelope): (j: Json)
    ensures j.JObject? && Get(j.fields, "status") == Some(JInt(env.status))
    ensures env.response.Fail? ==>
      Get(j.fields, "response") == Some(JObject([("result_code", JStr("Fail")), ("error", JStr(env.response.error))]))
    ensures env.response.Parsed? ==> Get(j.fields, "response") == Some(env.response.json)
    ensures env.response.Raw? ==> Get(j.fields, "response") == Some(JStr(env.response.text))
  {
    var response :=
      match env.response
      case Parsed(json) => json
      case Raw(text) => JStr(text)
      case Fail(error) => JObject([("result_code", JStr("Fail")), ("error", JStr(error))]);
    JObject([("status", JInt(env.status)), ("response", response)])
  }

  /** `handler(event, context)`: always status 200 with the CORS headers;
      the body is the serialised result envelope. */
  function Handler(cfg: Config, event: seq<(string, Json)>, date: string, transport: Transport): (r: LambdaResponse)
    ensures r.statusCode == 200
    ensures r.headers == CORS_HEADERS
    ensures r.body == cfg.codec.dumps(EnvelopeJson(HandlerResult(cfg, event, date, transport)))
  {
    LambdaResponse(200, CORS_HEADERS, cfg.codec.dumps(EnvelopeJson(HandlerResult(cfg, event, date, transport))))
  }

  /** A network failure is reported inside a 200 response: the nested
      result is the 500 `Fail` envelope carrying the exception's message. */
  lemma TransportFailureIsNested(cfg: Config, event: seq<(string, Json)>, date: string, transport: Transport)
    requires ParseEvent(cfg.codec, event).Ok?
    requires var req := ParseEvent(cfg.codec, event).value;
      req.path.JStr? && Route(cfg.codec, req.httpMethod, req.path.s, req.requestBody).Ok?
    requires var req := ParseEvent(cfg.codec, event).value;
      var call := Route(cfg.codec, req.httpMethod, req.path.s, req.requestBody).value;
      transport(BuildRequest(cfg, call.httpMethod, call.path, call.body, date)).TransportError?
    ensures Handler(cfg, event, date, transport).statusCode == 200
    ensures var req := ParseEvent(cfg.codec, event).value;
      var call := Route(cfg.codec, req.httpMethod, req.path.s, req.requestBody).value;
      Handler(cfg, event, date, transport).body
      == cfg.codec.dumps(EnvelopeJson(FailEnvelope(transport(BuildRequest(cfg, call.httpMethod, call.path, call.body, date)).message)))
    ensures var req := ParseEvent(cfg.codec, event).value;
      var call := Route(cfg.codec, req.httpMethod, req.path.s, req.requestBody).value;
      HandlerResult(cfg, event, date, transport)
      == FailEnvelope(transport(BuildRequest(cfg, call.httpMethod, call.path, call.body, date)).message)
  {
  }

  /** An event whose `body` is JSON text behaves as an event whose `body`
      is the dict that text parses to, whatever other keys either carries. */
  lemma BodyTextOrDict(cfg: Config, e1: seq<(string, Json)>, e2: seq<(string, Json)>, text: string,
                       fields: seq<(string, Json)>, date: string, transport: Transport)
    requires Get(e1, "body") == Some(JStr(text))
    requires Get(e2, "body") == Some(JObject(fields))
    requires cfg.codec.loads(text) == Ok(JObject(fields))
    ensures ParseEvent(cfg.codec, e1) == ParseEvent(cfg.codec, e2)
    ensures Handler(cfg, e1, date, transport) == Handler(cfg, e2, date, transport)
  {
    assert ParseEvent(cfg.codec, e1) == ParseEvent(cfg.codec, e2);
    assert HandlerResult(cfg, e1, date, transport) == HandlerResult(cfg, e2, date, transport);
  }

  /** An event whose `body` dict has none of the three parameters asks for
      method `''` on path `''` with the empty dict as body. */
  lemma ParseEventDefaults(codec: JsonCodec, event: seq<(string, Json)>, fields: seq<(string, Json)>)
    requires Get(event, "body") == Some(JObject(fields))
    requires !HasKey(fields, "http_method") && !HasKey(fields, "path") && !HasKey(fields, "request_body")
    ensures ParseEvent(codec, event) == Ok(Request("", JStr(""), JObject([])))
  {
  }

  /** The method is case-insensitive: sending it in any case gives the same
      request as sending it upper-cased. */
  lemma MethodCaseInsensitive(codec: JsonCodec, e1: seq<(string, Json)>, e2: seq<(string, Json)>,
                              fields: seq<(string, Json)>, m: string)
    requires Get(fields, "http_method") == Some(JStr(m))
    requires Get(e1, "body") == Some(JObject(fields))
    requires Get(e2, "body") == Some(JObject(SetField(fields, "http_method", JStr(Upper(m)))))
    ensures ParseEvent(codec, e1) == ParseEvent(codec, e2)
  {
    var fields' := SetField(fields, "http_method", JStr(Upper(m)));
    SetFieldGet(fields, "http_method", JStr(Upper(m)), "path");
    SetFieldGet(fields, "http_method", JStr(Upper(m)), "request_body");
    ParseEventWith(codec, e1, fields, m);
    ParseEventWith(codec, e2, fields', Upper(m));
    UpperIdempotent(m);
  }

  /** Reading an event whose `body` is a dict with a string `http_method`. */
  lemma ParseEventWith(codec: JsonCodec, event: seq<(string, Json)>, fields: seq<(string, Json)>, m: string)
    requires Get(event, "body") == Some(JObject(fields))
    requires Get(fields, "http_method") == Some(JStr(m))
    ensures ParseEvent(codec, event)
         == Ok(Request(Upper(m), GetOr(fields, "path", JStr("")), GetOr(fields, "request_body", JObject([]))))
  {
  }

  /** An event without `body` is read directly: its own `http_method`
      upper-cased, with the `path` and `request_body` defaults. */
  lemma ParseEventNoBody(codec: JsonCodec, event: seq<(string, Json)>, m: string)
    requires !HasKey(event, "body")
    requires Get(event, "http_method") == Some(JStr(m))
    ensures ParseEvent(codec, event)
         == Ok(Request(Upper(m), GetOr(event, "path", JStr("")), GetOr(event, "request_body", JObject([]))))
  {
  }

  /** A `body` that is neither text nor a dict (null, a list, a number, a
      boolean) cannot be read: `.get` on it raises. */
  lemma ParseEventBodyNotDict(codec: JsonCodec, event: seq<(string, Json)>, b: Json)
    requires Get(event, "body") == Some(b)
    requires !b.JStr? && !b.JObject?
    ensures ParseEvent(codec, event) == Err(NoAttribute(b, "get"))
  {
  }

  /** A text `body` is read only when `json.loads` gives a dict: its error
      when it rejects the text, and the `.get` AttributeError when the text
      holds some other JSON value. */
  lemma ParseEventText(codec: JsonCodec, event: seq<(string, Json)>, t: string)
    requires Get(event, "body") == Some(JStr(t))
    ensures codec.loads(t).Err? ==> ParseEvent(codec, event) == Err(codec.loads(t).error)
    ensures codec.loads(t).Ok? && !codec.loads(t).value.JObject? ==>
      ParseEvent(codec, event) == Err(NoAttribute(codec.loads(t).value, "get"))
  {
  }

  /** An `http_method` that is not a string cannot be upper-cased. */
  lemma ParseEventMethodNotString(codec: JsonCodec, event: seq<(string, Json)>, fields: seq<(string, Json)>, m: Json)
    requires Get(event, "body") == Some(JObject(fields))
    requires Get(fields, "http_method") == Some(m) && !m.JStr?
    ensures ParseEvent(codec, event) == Err(NoAttribute(m, "upper"))
  {
  }

  /** A `body` dict without `http_method` asks for method `''`, with its own
      `path` and `request_body` or their defaults. */
  lemma ParseEventNoMethod(codec: JsonCodec, event: seq<(string, Json)>, fields: seq<(string, Json)>)
    requires Get(event, "body") == Some(JObject(fields))
    requires !HasKey(fields, "http_method")
    ensures ParseEvent(codec, event)
         == Ok(Request("", GetOr(fields, "path", JStr("")), GetOr(fields, "request_body", JObject([]))))
  {
  }
}

=== FILE: json.dfy ===
/** JSON values as Python's `json.loads` produces them (None, bool, int,
    float, str, list, dict), and the parts of Python's object model the proxy
    touches: `type(v).__name__`, truthiness and `dict.get`. Parsing and
    printing JSON text are not modelled; they are supplied as a `JsonCodec`. */
module Json {
  import opened Wrappers

  /** A Python object decoded from JSON. A float is kept as its IEEE-754
      binary64 bit pattern; a dict keeps its entries in insertion order. */
  datatype Json =
    | JNull
    | JBool(b: bool)
    | JInt(i: int)
    | JFloat(bits: bv64)
    | JStr(s: string)
    | JArray(items: seq<Json>)
    | JObject(fields: seq<(string, Json)>)

  /** `json.dumps`, `json.loads` (with the text of the `JSONDecodeError` on
      failure) and the two conversions `float()` performs on an int and on a
      string (with the text of the `OverflowError` / `ValueError`). */
  datatype JsonCodec = JsonCodec(
    dumps: Json -> string,
    loads: string -> Result<Json>,
    intToFloat: int -> Result<bv64>,
    strToFloat: string -> Result<bv64>)

  /** Python's `type(v).__name__`. */
  function TypeName(v: Json): string
  {
    match v
    case JNull => "NoneType"
    case JBool(_) => "bool"
    case JInt(_) => "int"
    case JFloat(_) => "float"
    case JStr(_) => "str"
    case JArray(_) => "list"
    case JObject(_) => "dict"
  }

  /** The message of the `AttributeError` raised by `v.attr` when `v` has no
      such attribute. */
  function NoAttribute(v: Json, attr: string): string
  {
    "'" + TypeName(v) + "' object has no attribute '" + attr + "'"
  }

  /** Python's `bool(v)`. A float is false exactly for +0.0 and -0.0, that
      is when every bit but the sign bit is clear (so NaN is true). */
  predicate Truthy(v: Json)
  {
    match v
    case JNull => false
    case JBool(b) => b
    case JInt(i) => i != 0
    case JFloat(bits) => bits & 0x7FFF_FFFF_FFFF_FFFF != 0
    case JStr(s) => s != ""
    case JArray(items) => items != []
    case JObject(fields) => fields != []
  }

  /** Python's `key in d` for a dict given by its entries. */
  predicate HasKey(fields: seq<(string, Json)>, key: string)
  {
    exists k :: 0 <= k < |fields| && fields[k].0 == key
  }

  /** A Python dict never holds the same key twice. */
  predicate DistinctKeys(fields: seq<(string, Json)>)
  {
    forall i, j :: 0 <= i < j < |fields| ==> fields[i].0 != fields[j].0
  }

  /** Python's `d.get(key)`: the value stored under `key`, if any. */
  function Get(fields: seq<(string, Json)>, key: string): (r: Option<Json>)
    ensures r.None? <==> !HasKey(fields, key)
    ensures r.Some? ==> exists k :: 0 <= k < |fields| && fields[k] == (key, r.value)
    ensures r.Some? && DistinctKeys(fields) ==>
      forall k :: 0 <= k < |fields| && fields[k].0 == key ==> fields[k].1 == r.value
  {
    if |fields| == 0 then None
    else if fields[0].0 == key then Some(fields[0].1)
    else
      var r := Get(fields[1..], key);
      assert forall k :: 0 < k < |fields| ==> fields[k] == fields[1..][k - 1];
      r
  }

  /** Python's `d.get(key, default)`. */
  function GetOr(fields: seq<(string, Json)>, key: string, default: Json): (r: Json)
    ensures HasKey(fields, key) ==> Get(fields, key) == Some(r)
    ensures !HasKey(fields, key) ==> r == default
  {
    match Get(fields, key)
    case Some(v) => v
    case None => default
  }
}

=== FILE: router.dfy ===
/** `process_request`: which upstream call a (method, path, body) triple
    becomes, how an update body is cleaned, and the recovery boundary that
    turns every exception into a 500 `Fail` envelope. */
module Router {
  import opened Wrappers
  import opened Strings
  import opened Json
  import opened Dispatch

  const TARGETS: string := "/targets"
  const TARGETS_PREFIX: string := "/targets/"

  /** IEEE-754 binary64 1.0. */
  const FLOAT_ONE: bv64 := 0x3FF0_0000_0000_0000

  /** The upstream call chosen for a request: the arguments passed to
      `make_vuforia_request`. */
  datatype Call = Call(httpMethod: string, path: string, body: string)

  /** Python's `float(v)`, with the text of the exception it raises. */
  function ToFloat(codec: JsonCodec, v: Json): (r: Result<bv64>)
    ensures v.JFloat? ==> r == Ok(v.bits)
    ensures (v.JNull? || v.JArray? || v.JObject?) ==> r.Err?
  {
    match v
    case JFloat(bits) => Ok(bits)
    case JBool(b) => Ok(if b then FLOAT_ONE else 0)
    case JInt(i) => codec.intToFloat(i)
    case JStr(s) => codec.strToFloat(s)
    case _ => Err("float() argument must be a string or a real number, not '" + TypeName(v) + "'")
  }

  /** `{k: v for k, v in d.items() if v is not None}`. */
  function DropNulls(fields: seq<(string, Json)>): (r: seq<(string, Json)>)
    ensures forall k :: 0 <= k < |r| ==> r[k].1 != JNull
    ensures forall e :: e in r <==> e in fields && e.1 != JNull
    ensures forall key :: HasKey(r, key) <==> HasNonNull(fields, key)
    ensures DistinctKeys(fields) ==> DistinctKeys(r)
  {
    if fields == [] then []
    else
      var rest := DropNulls(fields[1..]);
      assert forall e :: e in fields <==> e == fields[0] || e in fields[1..];
      (if fields[0].1 == JNull then [] else [fields[0]]) + rest
  }

  /** Some entry stores `key` with a value other than null. */
  predicate HasNonNull(fields: seq<(string, Json)>, key: string)
  {
    exists k :: 0 <= k < |fields| && fields[k].0 == key && fields[k].1 != JNull
  }

  /** Dropping nulls keeps the relative order of what is kept: it
      distributes over concatenation. */
  lemma {:induction false} DropNullsAppend(a: seq<(string, Json)>, b: seq<(string, Json)>)
    ensures DropNulls(a + b) == DropNulls(a) + DropNulls(b)
  {
    if a == [] {
      assert a + b == b;
    } else {
      assert a + b == [a[0]] + (a[1..] + b);
      assert a == [a[0]] + a[1..];
      DropNullsCons(a[0], a[1..] + b);
      DropNullsCons(a[0], a[1..]);
      DropNullsAppend(a[1..], b);
      ConcatAssoc(if a[0].1 == JNull then [] else [a[0]], DropNulls(a[1..]), DropNulls(b));
    }
  }

  /** Sequence concatenation is associative. */
  lemma ConcatAssoc<T>(x: seq<T>, y: seq<T>, z: seq<T>)
    ensures x + (y + z) == (x + y) + z
  {
  }

  /** One step of `DropNulls`: the first entry is kept unless it is null. */
  lemma DropNullsCons(x: (string, Json), rest: seq<(string, Json)>)
    ensures DropNulls([x] + rest) == (if x.1 == JNull then [] else [x]) + DropNulls(rest)
  {
    assert ([x] + rest)[1..] == rest;
  }

  /** Python's `d[key] = v` for a key already in `d`: the value moves, the
      entry keeps its place. */
  function SetField(fields: seq<(string, Json)>, key: string, v: Json): (r: seq<(string, Json)>)
    ensures |r| == |fields|
    ensures forall k :: 0 <= k < |r| ==> r[k].0 == fields[k].0
  {
    seq(|fields|, k requires 0 <= k < |fields| => if fields[k].0 == key then (key, v) else fields[k])
  }

  /** The dict laws of `SetField`: the key now maps to `v`, every other key
      keeps its value, and no key appears twice that did not before. */
  lemma SetFieldGet(fields: seq<(string, Json)>, key: string, v: Json, other: string)
    requires HasKey(fields, key)
    ensures Get(SetField(fields, key, v), key) == Some(v)
    ensures other != key ==> Get(SetField(fields, key, v), other) == Get(fields, other)
    ensures DistinctKeys(fields) ==> DistinctKeys(SetField(fields, key, v))
  {
    var r := SetField(fields, key, v);
    var k :| 0 <= k < |fields| && fields[k].0 == key;
    assert r[k] == (key, v);
    GetFirst(r, key);
    if other != key {
      SetFieldOther(fields, key, v, other);
    }
  }

  /** `Get` returns the value of the first entry with the key. */
  lemma {:induction false} GetFirst(fields: seq<(string, Json)>, key: string)
    requires HasKey(fields, key)
    ensures exists k :: 0 <= k < |fields| && fields[k].0 == key && Get(fields, key) == Some(fields[k].1)
                        && forall j :: 0 <= j < k ==> fields[j].0 != key
  {
    if fields[0].0 != key {
      assert HasKey(fields[1..], key) by {
        var k :| 0 <= k < |fields| && fields[k].0 == key;
        assert fields[1..][k - 1].0 == key;
      }
      GetFirst(fields[1..], key);
      var k :| 0 <= k < |fields[1..]| && fields[1..][k].0 == key && Get(fields[1..], key) == Some(fields[1..][k].1)
               && forall j :: 0 <= j < k ==> fields[1..][j].0 != key;
      assert fields[k + 1].0 == key;
      forall j | 0 <= j < k + 1 ensures fields[j].0 != key {
        if j > 0 { assert fields[j] == fields[1..][j - 1]; }
      }
    }
  }

  /** Setting one key does not change the lookup of another. */
  lemma {:induction false} SetFieldOther(fields: seq<(string, Json)>, key: string, v: Json, other: string)
    requires other != key
    ensures Get(SetField(fields, key, v), other) == Get(fields, other)
  {
    if fields != [] {
      var r := SetField(fields, key, v);
      assert r[1..] == SetField(fields[1..], key, v);
      SetFieldOther(fields[1..], key, v, other);
    }
  }

  /** src/index.py:91-101: the body of an update. Null values are dropped and a
      remaining `width` is converted with `float()`. */
  function NormaliseUpdate(codec: JsonCodec, fields: seq<(string, Json)>): Result<seq<(string, Json)>>
  {
    var kept := DropNulls(fields);
    match Get(kept, "width")
    case None => Ok(kept)
    case Some(width) =>
      match ToFloat(codec, width)
      case Err(e) => Err(e)
      case Ok(bits) => Ok(SetField(kept, "width", JFloat(bits)))
  }

  /** The value of the first non-null `width` entry, if there is one. */
  function WidthValue(fields: seq<(string, Json)>): Option<Json>
  {
    Get(DropNulls(fields), "width")
  }

  /** Normalising an update fails exactly when a non-null `width` is present
      and `float()` rejects it, with `float()`'s message. */
  lemma NormaliseUpdateFails(codec: JsonCodec, fields: seq<(string, Json)>)
    ensures NormaliseUpdate(codec, fields).Err? <==>
      HasNonNull(fields, "width") && ToFloat(codec, WidthValue(fields).value).Err?
    ensures NormaliseUpdate(codec, fields).Err? ==>
      NormaliseUpdate(codec, fields).error == ToFloat(codec, WidthValue(fields).value).error
  {
    assert HasKey(DropNulls(fields), "width") <==> HasNonNull(fields, "width");
  }

  /** What an update body becomes: the non-null entries in their order,
      every value kept except `width`, which becomes the float of its value. */
  lemma NormaliseUpdateEntries(codec: JsonCodec, fields: seq<(string, Json)>)
    requires NormaliseUpdate(codec, fields).Ok?
    ensures var r := NormaliseUpdate(codec, fields).value;
      && |r| == |DropNulls(fields)|
      && (forall k :: 0 <= k < |r| ==> r[k].0 == DropNulls(fields)[k].0)
      && (forall k :: 0 <= k < |r| ==> r[k].1 != JNull)
      && (forall k :: 0 <= k < |r| && r[k].0 != "width" ==> r[k].1 == DropNulls(fields)[k].1)
      && (forall k :: 0 <= k < |r| && r[k].0 == "width" ==>
            r[k].1.JFloat? && ToFloat(codec, WidthValue(fields).value) == Ok(r[k].1.bits))
  {
    var kept := DropNulls(fields);
    if Get(kept, "width").Some? {
      var bits := ToFloat(codec, Get(kept, "width").value).value;
      var r := SetField(kept, "width", JFloat(bits));
      assert NormaliseUpdate(codec, fields).value == r;
      forall k | 0 <= k < |r|
        ensures r[k].1 == if kept[k].0 == "width" then JFloat(bits) else kept[k].1
      {
      }
    }
  }

  /** A dict stays a dict: normalising never makes a key appear twice. */
  lemma NormaliseUpdateDistinct(codec: JsonCodec, fields: seq<(string, Json)>)
    requires DistinctKeys(fields) && NormaliseUpdate(codec, fields).Ok?
    ensures DistinctKeys(NormaliseUpdate(codec, fields).value)
  {
    var kept := DropNulls(fields);
    if Get(kept, "width").Some? {
      var bits := ToFloat(codec, Get(kept, "width").value).value;
      SetFieldGet(kept, "width", JFloat(bits), "width");
    }
  }

  /** The PUT branch's body: the normalised dict as JSON, or the empty
      string when the body is not a dict. */
  function UpdateBody(codec: JsonCodec, body: Json): (r: Result<string>)
    ensures !body.JObject? ==> r == Ok("")
    ensures body.JObject? ==> (r.Ok? <==> NormaliseUpdate(codec, body.fields).Ok?)
    ensures body.JObject? && r.Err? ==> r.error == NormaliseUpdate(codec, body.fields).error
  {
    match body
    case JObject(fields) =>
      (match NormaliseUpdate(codec, fields)
       case Err(e) => Err(e)
       case Ok(cleaned) => Ok(codec.dumps(JObject(cleaned))))
    case _ => Ok("")
  }

  /** The fallback branch's body: a dict is serialised, a string is sent as
      it is, a false value becomes the empty string; any other value reaches
      `content.encode` (src/index.py:23) and raises. */
  function FallbackBody(codec: JsonCodec, body: Json): (r: Result<string>)
    ensures r.Err? <==> Truthy(body) && !body.JObject? && !body.JStr?
    ensures body.JObject? ==> r == Ok(codec.dumps(body))
    ensures body.JStr? ==> r == Ok(body.s)
    ensures !body.JObject? && !Truthy(body) ==> r == Ok("")
    ensures r.Err? ==> r.error == NoAttribute(body, "encode")
  {
    match body
    case JObject(_) => Ok(codec.dumps(body))
    case JStr(s) => Ok(s)
    case _ => if Truthy(body) then Err(NoAttribute(body, "encode")) else Ok("")
  }

  /** Splitting a string that starts with the separator gives an empty first
      piece, then the pieces of the rest. */
  lemma SplitPrefixed(s: string, sep: string)
    requires |sep| > 0 && StartsWith(s, sep)
    ensures Split(s, sep) == [""] + Split(s[|sep|..], sep)
  {
    assert OccursAt(s, sep, 0) by {
      assert s[0..|sep|] == s[..|sep|];
    }
    FindFirst(s, sep, 0);
  }

  /** `path.split('/targets/')[1]`; the index exists because the path
      starts with the separator. */
  function TargetId(path: string): string
    requires StartsWith(path, TARGETS_PREFIX)
  {
    SplitPrefixed(path, TARGETS_PREFIX);
    Split(path, TARGETS_PREFIX)[1]
  }

  /** The target id is the text after the leading `/targets/` up to the next
      `/targets/`, or to the end when there is none; in that case the
      rebuilt path `/targets/{id}` is the path itself. */
  lemma TargetIdSpec(path: string)
    requires StartsWith(path, TARGETS_PREFIX)
    ensures var rest := path[|TARGETS_PREFIX|..];
      TargetId(path) == match Find(rest, TARGETS_PREFIX) case None => rest case Some(i) => rest[..i]
    ensures !Contains(path[|TARGETS_PREFIX|..], TARGETS_PREFIX) ==> TARGETS_PREFIX + TargetId(path) == path
  {
    SplitPrefixed(path, TARGETS_PREFIX);
    assert path == path[..|TARGETS_PREFIX|] + path[|TARGETS_PREFIX|..];
  }

  // The five routing rules, in the order they are tried.

  predicate IsUpdate(httpMethod: string, path: string)
  {
    httpMethod == "PUT" && StartsWith(path, TARGETS_PREFIX)
  }

  predicate IsCreate(httpMethod: string, path: string)
  {
    httpMethod == "POST" && path == TARGETS
  }

  predicate IsList(httpMethod: string, path: string)
  {
    httpMethod == "GET" && path == TARGETS
  }

  predicate IsDelete(httpMethod: string, path: string)
  {
    httpMethod == "DELETE" && StartsWith(path, TARGETS_PREFIX)
  }

  predicate IsRetrieve(httpMethod: string, path: string)
  {
    httpMethod == "GET" && StartsWith(path, TARGETS_PREFIX)
  }

  /** None of the five rules applies: the request is passed through. */
  predicate IsPassThrough(httpMethod: string, path: string)
  {
    !IsUpdate(httpMethod, path) && !IsCreate(httpMethod, path) && !IsList(httpMethod, path)
    && !IsDelete(httpMethod, path) && !IsRetrieve(httpMethod, path)
  }

  /** The branch structure of `process_request` up to the call of
      `make_vuforia_request`: the call it makes, or the exception that
      stops it first. */
  function Route(codec: JsonCodec, httpMethod: string, path: string, body: Json): (r: Result<Call>)
    ensures r.Ok? ==> r.value.httpMethod == httpMethod
    ensures r.Ok? && r.value.path != path ==>
      (IsDelete(httpMethod, path) || IsRetrieve(httpMethod, path))
      && Contains(path[|TARGETS_PREFIX|..], TARGETS_PREFIX)
    ensures r.Err? <==>
      (IsUpdate(httpMethod, path) && UpdateBody(codec, body).Err?)
      || (IsPassThrough(httpMethod, path) && FallbackBody(codec, body).Err?)
    ensures IsUpdate(httpMethod, path) && r.Err? ==> r.error == UpdateBody(codec, body).error
    ensures IsPassThrough(httpMethod, path) && r.Err? ==> r.error == FallbackBody(codec, body).error
  {
    if IsUpdate(httpMethod, path) then
      match UpdateBody(codec, body)
      case Err(e) => Err(e)
      case Ok(b) => Ok(Call(httpMethod, path, b))
    else if IsCreate(httpMethod, path) then
      Ok(Call("POST", TARGETS, codec.dumps(body)))
    else if IsList(httpMethod, path) then
      Ok(Call("GET", TARGETS, ""))
    else if IsDelete(httpMethod, path) then
      TargetIdSpec(path);
      Ok(Call("DELETE", TARGETS_PREFIX + TargetId(path), ""))
    else if IsRetrieve(httpMethod, path) then
      TargetIdSpec(path);
      Ok(Call("GET", TARGETS_PREFIX + TargetId(path), ""))
    else
      match FallbackBody(codec, body)
      case Err(e) => Err(e)
      case Ok(b) => Ok(Call(httpMethod, path, b))
  }

  /** `process_request(httpMethod, path, body)`: the chosen call made through
      `make_vuforia_request`, or the 500 `Fail` envelope of the exception
      that stopped it. */
  function ProcessRequest(cfg: Config, httpMethod: string, path: string, body: Json,
                          date: string, transport: Transport): (r: Envelope)
    ensures r.response.Fail? ==> r.status == 500
    ensures Route(cfg.codec, httpMethod, path, body).Err? ==>
      r == FailEnvelope(Route(cfg.codec, httpMethod, path, body).error)
    ensures Route(cfg.codec, httpMethod, path, body).Ok? ==>
      var call := Route(cfg.codec, httpMethod, path, body).value;
      r == MapResponse(cfg.codec, transport(BuildRequest(cfg, call.httpMethod, call.path, call.body, date)))
  {
    match Route(cfg.codec, httpMethod, path, body)
    case Err(e) => FailEnvelope(e)
    case Ok(call) => MakeVuforiaRequest(cfg, call.httpMethod, call.path, call.body, date, transport)
  }

  /** Rule 1: PUT on `/targets/...` goes out as PUT to the same path with
      the normalised dict, or an empty body for anything but a dict. */
  lemma RouteUpdate(codec: JsonCodec, path: string, body: Json)
    requires StartsWith(path, TARGETS_PREFIX)
    ensures var r := Route(codec, "PUT", path, body);
      && (r.Ok? <==> UpdateBody(codec, body).Ok?)
      && (r.Ok? ==> r.value == Call("PUT", path, UpdateBody(codec, body).value))
      && (!body.JObject? ==> r == Ok(Call("PUT", path, "")))
  {
  }

  /** Rule 2: POST on exactly `/targets` sends the body serialised as it
      came, nulls and all. */
  lemma RouteCreate(codec: JsonCodec, body: Json)
    ensures Route(codec, "POST", TARGETS, body) == Ok(Call("POST", TARGETS, codec.dumps(body)))
  {
  }

  /** Rule 3: GET on exactly `/targets` sends no body, whatever came. */
  lemma RouteList(codec: JsonCodec, body: Json)
    ensures Route(codec, "GET", TARGETS, body) == Ok(Call("GET", TARGETS, ""))
  {
  }

  /** Rules 4 and 5: DELETE or GET on `/targets/{id}` go out to
      `/targets/{id}` with no body; when the id holds no further
      `/targets/`, that is the path that came in. */
  lemma RouteById(codec: JsonCodec, httpMethod: string, path: string, body: Json)
    requires httpMethod == "DELETE" || httpMethod == "GET"
    requires StartsWith(path, TARGETS_PREFIX)
    ensures Route(codec, httpMethod, path, body) == Ok(Call(httpMethod, TARGETS_PREFIX + TargetId(path), ""))
    ensures !Contains(path[|TARGETS_PREFIX|..], TARGETS_PREFIX) ==>
      Route(codec, httpMethod, path, body) == Ok(Call(httpMethod, path, ""))
  {
    TargetIdSpec(path);
  }

  /** Rule 6: anything else keeps its method and path and sends the
      fallback body. */
  lemma RoutePassThrough(codec: JsonCodec, httpMethod: string, path: string, body: Json)
    requires IsPassThrough(httpMethod, path)
    ensures var r := Route(codec, httpMethod, path, body);
      && (r.Ok? <==> FallbackBody(codec, body).Ok?)
      && (r.Ok? ==> r.value == Call(httpMethod, path, FallbackBody(codec, body).value))
  {
  }

  /** PUT on exactly `/targets` is not an update: a dict body is sent
      without dropping its nulls. */
  lemma PutWithoutIdPassesThrough(codec: JsonCodec, fields: seq<(string, Json)>)
    ensures Route(codec, "PUT", TARGETS, JObject(fields)) == Ok(Call("PUT", TARGETS, codec.dumps(JObject(fields))))
  {
    assert !StartsWith(TARGETS, TARGETS_PREFIX);
  }

  /** The update example: `{"name": "x", "width": "5", "active_flag": null}`
      on `/targets/abc` is sent with `active_flag` gone and `width` the float
      5.0 (bits 0x4014000000000000), given that `float("5")` is 5.0. */
  lemma UpdateExample(codec: JsonCodec, path: string, fields: seq<(string, Json)>)
    requires codec.strToFloat("5") == Ok(0x4014_0000_0000_0000)
    requires path == "/targets/abc"
    requires fields == [("name", JStr("x")), ("width", JStr("5")), ("active_flag", JNull)]
    ensures Route(codec, "PUT", path, JObject(fields))
            == Ok(Call("PUT", path,
                       codec.dumps(JObject([("name", JStr("x")), ("width", JFloat(0x4014_0000_0000_0000))]))))
  {
    UpdateExampleBody(codec);
    UpdateExamplePath(path);
    RouteUpdateDict(codec, path, fields, [("name", JStr("x")), ("width", JFloat(0x4014_0000_0000_0000))]);
  }

  /** The update example's path is an update path. */
  lemma UpdateExamplePath(path: string)
    requires path == "/targets/abc"
    ensures StartsWith(path, TARGETS_PREFIX)
  {
    assert path[..|TARGETS_PREFIX|] == TARGETS_PREFIX;
  }

  /** An update whose dict normalises to `cleaned` sends `cleaned`. */
  lemma RouteUpdateDict(codec: JsonCodec, path: string, fields: seq<(string, Json)>, cleaned: seq<(string, Json)>)
    requires StartsWith(path, TARGETS_PREFIX)
    requires NormaliseUpdate(codec, fields) == Ok(cleaned)
    ensures Route(codec, "PUT", path, JObject(fields)) == Ok(Call("PUT", path, codec.dumps(JObject(cleaned))))
  {
  }

  /** The normalisation step of the update example. */
  lemma UpdateExampleBody(codec: JsonCodec)
    requires codec.strToFloat("5") == Ok(0x4014_0000_0000_0000)
    ensures NormaliseUpdate(codec, [("name", JStr("x")), ("width", JStr("5")), ("active_flag", JNull)])
            == Ok([("name", JStr("x")), ("width", JFloat(0x4014_0000_0000_0000))])
  {
    UpdateExampleDropNulls();
    UpdateExampleWidth();
  }

  /** The width lookup and update of the update example. */
  lemma UpdateExampleWidth()
    ensures Get([("name", JStr("x")), ("width", JStr("5"))], "width") == Some(JStr("5"))
    ensures SetField([("name", JStr("x")), ("width", JStr("5"))], "width", JFloat(0x4014_0000_0000_0000))
         == [("name", JStr("x")), ("width", JFloat(0x4014_0000_0000_0000))]
  {
    var kept := [("name", JStr("x")), ("width", JStr("5"))];
    assert "name" != "width";
    assert kept[1..] == [("width", JStr("5"))];
  }

  /** The null-dropping step of the update example. */
  lemma UpdateExampleDropNulls()
    ensures DropNulls([("name", JStr("x")), ("width", JStr("5")), ("active_flag", JNull)])
            == [("name", JStr("x")), ("width", JStr("5"))]
  {
    var fields := [("name", JStr("x")), ("width", JStr("5")), ("active_flag", JNull)];
    assert fields[1..] == [("width", JStr("5")), ("active_flag", JNull)];
    assert fields[1..][1..] == [("active_flag", JNull)];
    assert DropNulls([("active_flag", JNull)]) == [];
    assert DropNulls(fields[1..]) == [("width", JStr("5"))];
  }

  /** A request whose route raises sends nothing: its result does not depend
      on the network. */
  lemma FailedRouteSendsNothing(cfg: Config, httpMethod: string, path: string, body: Json,
                                date: string, transport: Transport, transport': Transport)
    requires Route(cfg.codec, httpMethod, path, body).Err?
    ensures ProcessRequest(cfg, httpMethod, path, body, date, transport)
         == ProcessRequest(cfg, httpMethod, path, body, date, transport')
  {
  }

  /** The status of a processed request is 500, 403, or the status of the
      reply to the one request that was sent. */
  lemma ProcessRequestStatus(cfg: Config, httpMethod: string, path: string, body: Json,
                             date: string, transport: Transport)
    ensures var r := ProcessRequest(cfg, httpMethod, path, body, date, transport);
      var route := Route(cfg.codec, httpMethod, path, body);
      r.status == 500 || r.status == 403
      || (route.Ok?
          && var sent := BuildRequest(cfg, route.value.httpMethod, route.value.path, route.value.body, date);
             transport(sent).Reply? && r.status == transport(sent).status)
  {
    var route := Route(cfg.codec, httpMethod, path, body);
    if route.Ok? {
      var sent := BuildRequest(cfg, route.value.httpMethod, route.value.path, route.value.body, date);
      MapResponseStatus(cfg.codec, transport(sent));
    }
  }
}

=== FILE: signer.dfy ===
/** The VWS request signer: the string to sign and the `Authorization`
    header (`compute_signature` and `get_authorization_header`). The digest
    algorithms themselves are parameters: `md5` is MD5 (RFC 1321), `hmacSha1`
    is HMAC (RFC 2104) over SHA-1 (FIPS 180-4), `base64` is the Base64
    alphabet encoding of section 4 of RFC 4648. */
module Signer {
  import opened Wrappers
  import opened Strings
  import opened Encoding

  /** The library primitives: MD5 digest, HMAC-SHA1 (key, message) and
      Base64 encoding (already decoded from ASCII bytes to text). */
  datatype Primitives = Primitives(
    md5: seq<byte> -> seq<byte>,
    hmacSha1: (seq<byte>, seq<byte>) -> seq<byte>,
    base64: seq<byte> -> string)

  /** MD5 digests are 16 bytes long. */
  ghost predicate Md5Sized(prims: Primitives)
  {
    forall bs :: |prims.md5(bs)| == 16
  }

  /** The lower-case hex MD5 digest of the UTF-8 bytes of `content`. */
  function ContentMd5(prims: Primitives, content: string): (r: string)
    ensures forall i :: 0 <= i < |r| ==> IsHexDigit(r[i])
    ensures '\n' !in r
    ensures Md5Sized(prims) ==> |r| == 32
    ensures Unhex(r) == Some(prims.md5(Utf8(content)))
  {
    var digest := prims.md5(Utf8(content));
    UnhexHex(digest);
    Hex(digest)
  }

  /** `compute_signature`: Base64 of HMAC-SHA1 keyed by the UTF-8 secret
      over the UTF-8 string to sign. */
  function ComputeSignature(prims: Primitives, secretKey: string, stringToSign: string): string
  {
    prims.base64(prims.hmacSha1(Utf8(secretKey), Utf8(stringToSign)))
  }

  /** The five components of the string to sign, in their fixed order. */
  function SignedComponents(prims: Primitives, httpMethod: string, content: string,
                            contentType: string, date: string, requestPath: string): seq<string>
  {
    [httpMethod, ContentMd5(prims, content), contentType, date, requestPath]
  }

  /** The string to sign: the components joined by single newlines. */
  function StringToSign(prims: Primitives, httpMethod: string, content: string,
                        contentType: string, date: string, requestPath: string): string
  {
    Join(SignedComponents(prims, httpMethod, content, contentType, date, requestPath), "\n")
  }

  /** `get_authorization_header`. */
  function AuthorizationHeader(prims: Primitives, accessKey: string, secretKey: string,
                               httpMethod: string, content: string, contentType: string,
                               date: string, requestPath: string): string
  {
    "VWS " + accessKey + ":"
      + ComputeSignature(prims, secretKey, StringToSign(prims, httpMethod, content, contentType, date, requestPath))
  }

  /** How the receiving side reads an `Authorization` header: the text
      `VWS `, the access key up to the first colon, then the signature. */
  function ParseAuthorization(header: string): Option<(string, string)>
  {
    if !StartsWith(header, "VWS ") then None
    else
      var rest := header[4..];
      match Find(rest, ":")
      case None => None
      case Some(i) => Some((rest[..i], rest[i + 1..]))
  }

  /** The header splits back into the access key and the signature of the
      string to sign, provided the access key has no colon. */
  lemma AuthorizationRoundTrip(prims: Primitives, accessKey: string, secretKey: string,
                               httpMethod: string, content: string, contentType: string,
                               date: string, requestPath: string)
    requires ':' !in accessKey
    ensures ParseAuthorization(AuthorizationHeader(prims, accessKey, secretKey, httpMethod, content,
                                                   contentType, date, requestPath))
            == Some((accessKey, ComputeSignature(prims, secretKey,
                       StringToSign(prims, httpMethod, content, contentType, date, requestPath))))
  {
    var sig := ComputeSignature(prims, secretKey, StringToSign(prims, httpMethod, content, contentType, date, requestPath));
    var header := AuthorizationHeader(prims, accessKey, secretKey, httpMethod, content, contentType, date, requestPath);
    var rest := header[4..];
    assert rest == accessKey + ":" + sig;
    assert OccursAt(rest, ":", |accessKey|) by {
      assert rest[|accessKey|..|accessKey| + 1] == ":";
    }
    forall j | 0 <= j < |accessKey|
      ensures !OccursAt(rest, ":", j)
    {
      if OccursAt(rest, ":", j) {
        OccursAtChar(rest, ':', j);
      }
    }
    FindFirst(rest, ":", |accessKey|);
    assert rest[..|accessKey|] == accessKey;
    assert rest[|accessKey| + 1..] == sig;
  }

  /** When the method, content type, date and path hold no newline, splitting
      the string to sign on newlines gives back the five components. */
  lemma StringToSignSplits(prims: Primitives, httpMethod: string, content: string,
                           contentType: string, date: string, requestPath: string)
    requires '\n' !in httpMethod && '\n' !in contentType && '\n' !in date && '\n' !in requestPath
    ensures Split(StringToSign(prims, httpMethod, content, contentType, date, requestPath), "\n")
            == [httpMethod, ContentMd5(prims, content), contentType, date, requestPath]
  {
    SplitJoin(SignedComponents(prims, httpMethod, content, contentType, date, requestPath), '\n');
  }

  /** Under the same condition the string to sign determines every
      component, the MD5 digest of the body included. */
  lemma StringToSignInjective(prims: Primitives,
                              httpMethod: string, content: string, contentType: string, date: string, requestPath: string,
                              httpMethod': string, content': string, contentType': string, date': string, requestPath': string)
    requires '\n' !in httpMethod && '\n' !in contentType && '\n' !in date && '\n' !in requestPath
    requires '\n' !in httpMethod' && '\n' !in contentType' && '\n' !in date' && '\n' !in requestPath'
    requires StringToSign(prims, httpMethod, content, contentType, date, requestPath)
             == StringToSign(prims, httpMethod', content', contentType', date', requestPath')
    ensures httpMethod == httpMethod' && contentType == contentType' && date == date' && requestPath == requestPath'
    ensures prims.md5(Utf8(content)) == prims.md5(Utf8(content'))
  {
    StringToSignSplits(prims, httpMethod, content, contentType, date, requestPath);
    StringToSignSplits(prims, httpMethod', content', contentType', date', requestPath');
    assert ContentMd5(prims, content) == ContentMd5(prims, content');
  }
}

=== FILE: strings.dfy ===
/** The Python string operations the proxy relies on: `str.startswith`,
    `str.split(sep)`, `sep.join(parts)` and (ASCII) `str.upper()`. */
module Strings {
  import opened Wrappers

  /** `pat` occurs in `s` starting at index `i`. */
  predicate OccursAt(s: string, pat: string, i: nat)
  {
    i + |pat| <= |s| && s[i..i + |pat|] == pat
  }

  /** Python's `s.startswith(prefix)`. */
  predicate StartsWith(s: string, prefix: string)
  {
    |prefix| <= |s| && s[..|prefix|] == prefix
  }

  /** The index of the first occurrence of `pat` in `s` (Python's `s.find(pat)`,
      with `None` for -1). */
  function Find(s: string, pat: string): (r: Option<nat>)
    ensures r.Some? ==> OccursAt(s, pat, r.value)
    ensures r.Some? ==> forall j :: 0 <= j < r.value ==> !OccursAt(s, pat, j)
    ensures r.None? ==> forall j :: 0 <= j <= |s| ==> !OccursAt(s, pat, j)
    decreases |s|
  {
    if |s| < |pat| then None
    else if s[..|pat|] == pat then Some(0)
    else
      var rest := Find(s[1..], pat);
      OccursShift(s, pat);
      match rest
      case None => None
      case Some(i) => Some(i + 1)
  }

  /** Occurrences in `s[1..]` are the occurrences in `s` moved one place left. */
  lemma OccursShift(s: string, pat: string)
    requires |s| > 0
    ensures OccursAt(s, pat, 0) <==> StartsWith(s, pat)
    ensures forall j: nat :: 0 < j ==> (OccursAt(s, pat, j) <==> OccursAt(s[1..], pat, j - 1))
  {
    forall j: nat | 0 < j
      ensures OccursAt(s, pat, j) <==> OccursAt(s[1..], pat, j - 1)
    {
      if j + |pat| <= |s| {
        assert s[1..][j - 1..j - 1 + |pat|] == s[j..j + |pat|];
      }
    }
  }

  /** `pat` is a substring of `s` (Python's `pat in s`). */
  predicate Contains(s: string, pat: string)
  {
    Find(s, pat).Some?
  }

  /** Python's `sep.join(parts)`. */
  function Join(parts: seq<string>, sep: string): string
  {
    if |parts| == 0 then ""
    else if |parts| == 1 then parts[0]
    else parts[0] + sep + Join(parts[1..], sep)
  }

  /** Python's `s.split(sep)` for a non-empty separator: the pieces between
      the non-overlapping occurrences of `sep`, scanned from the left. */
  function Split(s: string, sep: string): (parts: seq<string>)
    requires |sep| > 0
    ensures |parts| >= 1
    ensures Join(parts, sep) == s
    ensures forall k :: 0 <= k < |parts| ==> !Contains(parts[k], sep)
    ensures Find(s, sep) == if |parts| == 1 then None else Some(|parts[0]|)
    decreases |s|
  {
    match Find(s, sep)
    case None => [s]
    case Some(i) =>
      var head := s[..i];
      NoEarlierOccurrence(s, sep, i);
      [head] + Split(s[i + |sep|..], sep)
  }

  /** A prefix of `s` that ends before the first occurrence of `pat` does
      not contain `pat`. */
  lemma NoEarlierOccurrence(s: string, pat: string, i: nat)
    requires |pat| > 0
    requires Find(s, pat) == Some(i)
    ensures !Contains(s[..i], pat)
  {
    var head := s[..i];
    if Find(head, pat).Some? {
      var j := Find(head, pat).value;
      assert head[j..j + |pat|] == s[j..j + |pat|];
      assert OccursAt(s, pat, j);
    }
  }

  /** An occurrence with none before it is the one `Find` reports. */
  lemma FindFirst(s: string, pat: string, i: nat)
    requires OccursAt(s, pat, i)
    requires forall j :: 0 <= j < i ==> !OccursAt(s, pat, j)
    ensures Find(s, pat) == Some(i)
  {
  }

  /** A single-character pattern occurs only where that character is. */
  lemma OccursAtChar(s: string, c: char, j: nat)
    requires OccursAt(s, [c], j)
    ensures j < |s| && s[j] == c
  {
    assert s[j..j + 1][0] == s[j];
  }

  /** Splitting undoes joining when the separator is one character that
      none of the parts contains. */
  lemma {:induction false} SplitJoin(parts: seq<string>, sep: char)
    requires |parts| >= 1
    requires forall k :: 0 <= k < |parts| ==> sep !in parts[k]
    ensures Split(Join(parts, [sep]), [sep]) == parts
  {
    var s := Join(parts, [sep]);
    if |parts| == 1 {
      if Find(s, [sep]).Some? {
        OccursAtChar(s, sep, Find(s, [sep]).value);
      }
    } else {
      var p := parts[0];
      assert s == p + [sep] + Join(parts[1..], [sep]);
      assert OccursAt(s, [sep], |p|) by {
        assert s[|p|..|p| + 1] == [sep];
      }
      forall j | 0 <= j < |p|
        ensures !OccursAt(s, [sep], j)
      {
        if OccursAt(s, [sep], j) {
          OccursAtChar(s, sep, j);
        }
      }
      FindFirst(s, [sep], |p|);
      assert s[|p| + 1..] == Join(parts[1..], [sep]);
      SplitJoin(parts[1..], sep);
      assert s[..|p|] == p;
    }
  }

  /** The upper-case form of an ASCII letter; other characters are kept. */
  function UpperChar(c: char): char
  {
    if 'a' <= c <= 'z' then (c as int - 32) as char else c
  }

  /** `s.upper()` restricted to ASCII: every lower-case letter is replaced
      by its capital, everything else is kept in place. */
  function Upper(s: string): (r: string)
    ensures |r| == |s|
    ensures forall i :: 0 <= i < |s| ==> !('a' <= r[i] <= 'z')
    ensures forall i :: 0 <= i < |s| && !('a' <= s[i] <= 'z') ==> r[i] == s[i]
    ensures forall i :: 0 <= i < |s| && 'a' <= s[i] <= 'z' ==> r[i] as int == s[i] as int - 32
  {
    seq(|s|, i requires 0 <= i < |s| => UpperChar(s[i]))
  }

  /** Upper-casing twice is upper-casing once. */
  lemma UpperIdempotent(s: string)
    ensures Upper(Upper(s)) == Upper(s)
  {
  }
}

=== FILE: wrappers.dfy ===
/** Option and Result types shared by the model. A Python exception is
    modelled as `Err(message)`, where `message` is the exception's `str(e)`. */
module Wrappers {

  datatype Option<+T> = None | Some(value: T)

  datatype Result<+T> = Ok(value: T) | Err(error: string)
}
